=== FILE: README.md ===
# Reprova question bank, modelled in Dafny

Reprova keeps a bank of exam questions. This project models its question core:

- the question entity: the abstract Question with its two variants, OpenQuestion and MultipleChoiceQuestion, and its `equals`, `hashCode` and `toString`;
- QuestionBuilder, which validates the fields and picks the variant;
- QuestionDAO, the repository over a document collection: `parseDoc`, `get`, `list`, `add`, `update` and `remove`;
- QuestionService, which parses request bodies into questions and delegates to the repository.

Files:

- `wrappers.dfy`: Option and Result. Java `null` is `None` and a thrown exception is `Failure`.
- `decimal.dfy`: `Integer.valueOf` on optCount, with the 32-bit range, and the decimal rendering of integers. It proves that every rendered integer parses back to itself.
- `semester.dfy`: the Semester key of a record and its string form. The string form is the document key the repository writes.
- `question.dfy`: the question datatype and its `equals`, `hashCode` and `toString`. It holds `equals` as written and as intended (see Findings).
- `question_builder.dfy`:
  - `BuildResult`, what `build()` returns or throws;
  - the mutable class `QuestionBuilder`, whose setters return the builder itself.
- `question_dao.dfy`:
  - the collection as a `Store` value: ordered entries and an identifier counter;
  - one pure function per repository operation (`Lookup`, `Listing`, `Added`, `Updated`, `Removed`);
  - the class `QuestionDAO`, whose methods change the stored entries in place and are proved to act as those functions say;
  - lemmas tying the operations together (add then get, remove then get, the order of the checks, identifier invariants).
- `question_service.dfy`:
  - the service operations, taking the repository as a parameter instead of a static singleton;
  - the privacy rule of `getAll`.

Two behaviours of the repository are modelled as written:

- `update` returns the store's write acknowledgement. It therefore returns that value even when no question has the identifier.
- `add` and `update` never write the "type" key. A multiple-choice question therefore reads back as an open question (`Repository.DocumentRoundTrip`).

## Model

| member | source | states |
|---|---|---|
| Decimal.ParseInteger | src/java/br/ufmg/engsoft/reprova/database/QuestionDAO.java:194 | the text parses iff it is an optional '+' or '-' followed by at least one ASCII digit. The value is the digits' value, negated after '-'. |
| Decimal.ValueOf | src/java/br/ufmg/engsoft/reprova/database/QuestionDAO.java:194-198 | `Integer.valueOf(optCount)` yields a value exactly when the text is an optionally signed run of digits whose value fits in an `int`. A null text yields none. |
| Decimal.ValueOfIntToString | src/java/br/ufmg/engsoft/reprova/database/QuestionDAO.java:194 | every `int` written in decimal is read back unchanged |
| Decimal.IntToStringRoundTrip | src/java/br/ufmg/engsoft/reprova/database/QuestionDAO.java:194 | the integer grammar reads back every rendered integer |
| Semesters.KeyRoundTrip | src/java/br/ufmg/engsoft/reprova/database/QuestionDAO.java:168-176 | the string key a semester is stored under decodes to that semester |
| Semesters.KeyInjective | src/java/br/ufmg/engsoft/reprova/database/QuestionDAO.java:171-175 | distinct semesters never collide as document keys, so `Collectors.toMap` never meets a duplicate key |
| Semesters.ParseKey | src/java/br/ufmg/engsoft/reprova/database/QuestionDAO.java:88-90 | a decoded key is exactly the key of the semester it decodes to |
| Questions.EqualsAsWritten | src/java/br/ufmg/engsoft/reprova/model/Question.java:61-76 | `equals` as written throws exactly when `id` is null, or when `statement` is null after id, theme and description matched. Whenever it returns, it agrees with the field-wise equality `Questions.Equals`. |
| Questions.EqualsNullStatementThrows | src/java/br/ufmg/engsoft/reprova/model/Question.java:70-73 | a question with a null statement, compared with an equal distinct copy, throws instead of returning true |
| Questions.EqualsIsFieldwise | src/java/br/ufmg/engsoft/reprova/model/Question.java:70-75 | two questions are equal iff their six common fields are equal |
| Questions.Equals | src/java/br/ufmg/engsoft/reprova/model/Question.java:62-66 | a question equals itself, and null or an object that is not a question equals nothing |
| Questions.EqualsSymmetricTransitive | src/java/br/ufmg/engsoft/reprova/model/Question.java:68-75 | equality is symmetric and transitive |
| Questions.EqualsIgnoresOptions | src/java/br/ufmg/engsoft/reprova/model/MultipleChoiceQuestion.java:6-34 | multiple-choice questions differing only in optCount and options are equal, since the subclass does not override `equals` |
| Questions.OpenEqualsMultipleChoice | src/java/br/ufmg/engsoft/reprova/model/Question.java:65-75 | an open question equals a multiple-choice question with the same common fields, in both directions |
| Questions.EqualsImpliesSameHash | src/java/br/ufmg/engsoft/reprova/model/Question.java:80-88 | equal questions have equal `hashCode` (`Objects.hash` over the six fields, with 32-bit wrap-around) |
| Questions.HashCode | src/java/br/ufmg/engsoft/reprova/model/Question.java:79-89 | `hashCode` is a Java `int`: `Objects.hash` over the six common fields, wrapped to 32 bits |
| Questions.Head | src/java/br/ufmg/engsoft/reprova/model/Question.java:108-111 | the head line is a prefix of the statement, at most 50 characters long, and the whole statement when it is at most 50 long |
| Questions.ToString | src/java/br/ufmg/engsoft/reprova/model/Question.java:96-116 | the text opens with the "Question:" line and ends with a line break |
| Questions.ToStringShowsStatementHead | src/java/br/ufmg/engsoft/reprova/model/Question.java:96-116 | the statement appears in `toString` only as a final "head" line holding its first characters, after the "pvt" line, and only when it is not null. With a null statement the text ends with the "pvt" line. |
| Builders.BuildResult | src/java/br/ufmg/engsoft/reprova/model/QuestionBuilder.java:70-114 | `build()` succeeds iff theme and description are non-null and non-empty and no inner record map is null. The result is well formed. It is multiple-choice iff `type` is "multiple_choice". Its fields are copied from the builder, and a null record becomes the empty map. |
| Builders.BuildRejectsMissingTheme | src/java/br/ufmg/engsoft/reprova/model/QuestionBuilder.java:71-75 | a null or empty theme throws its own error, whatever else is set |
| Builders.BuildRejectsMissingDescription | src/java/br/ufmg/engsoft/reprova/model/QuestionBuilder.java:77-81 | with a valid theme, a null or empty description throws its own error |
| Builders.BuildRejectsNullInnerRecord | src/java/br/ufmg/engsoft/reprova/model/QuestionBuilder.java:84-90 | a null inner map in the record throws |
| Builders.BuildDefaults | src/java/br/ufmg/engsoft/reprova/model/QuestionBuilder.java:16 | a fresh builder given only a theme and a description builds a private open question with an empty record and a null id and statement |
| Builders.BuildOpenUnlessMultipleChoice | src/java/br/ufmg/engsoft/reprova/model/OpenQuestion.java:6-15 | any other `type`, null included, builds an open question carrying the builder's common fields |
| Builders.BuildIgnoresUnvalidatedFields | src/java/br/ufmg/engsoft/reprova/model/QuestionBuilder.java:70-90 | id, statement, optCount and options never make `build()` fail |
| Builders.AllInnerPresent | src/java/br/ufmg/engsoft/reprova/model/QuestionBuilder.java:88-90 | the loop over the record's entries reports true iff no inner map is null |
| Builders.QuestionBuilder.constructor | src/java/br/ufmg/engsoft/reprova/model/QuestionBuilder.java:11-19 | a new builder has every field null except `pvt`, which is true |
| Builders.QuestionBuilder.Id | src/java/br/ufmg/engsoft/reprova/model/QuestionBuilder.java:21-24 | sets `id` only, and returns the same builder |
| Builders.QuestionBuilder.Theme | src/java/br/ufmg/engsoft/reprova/model/QuestionBuilder.java:26-29 | sets `theme` only, and returns the same builder |
| Builders.QuestionBuilder.Description | src/java/br/ufmg/engsoft/reprova/model/QuestionBuilder.java:31-34 | sets `description` only, and returns the same builder |
| Builders.QuestionBuilder.Statement | src/java/br/ufmg/engsoft/reprova/model/QuestionBuilder.java:36-39 | sets `statement` only, and returns the same builder |
| Builders.QuestionBuilder.Record | src/java/br/ufmg/engsoft/reprova/model/QuestionBuilder.java:41-44 | sets `record` only, and returns the same builder |
| Builders.QuestionBuilder.Pvt | src/java/br/ufmg/engsoft/reprova/model/QuestionBuilder.java:46-49 | sets `pvt` only, and returns the same builder |
| Builders.QuestionBuilder.Type | src/java/br/ufmg/engsoft/reprova/model/QuestionBuilder.java:51-54 | sets `type` only, and returns the same builder |
| Builders.QuestionBuilder.OptCount | src/java/br/ufmg/engsoft/reprova/model/QuestionBuilder.java:56-59 | sets `optCount` only, and returns the same builder |
| Builders.QuestionBuilder.Options | src/java/br/ufmg/engsoft/reprova/model/QuestionBuilder.java:61-64 | sets `options` only, and returns the same builder |
| Builders.QuestionBuilder.Build | src/java/br/ufmg/engsoft/reprova/model/QuestionBuilder.java:70-114 | returns what `BuildResult` says of the fields it started with. Its one side effect: a null record is replaced by the empty map once theme and description have passed. |
| Repository.StringifyRecord | src/java/br/ufmg/engsoft/reprova/database/QuestionDAO.java:168-176 | every key of the written record is the string form of a semester of the question's record |
| Repository.StringifiedEntries | src/java/br/ufmg/engsoft/reprova/database/QuestionDAO.java:168-176 | every semester's scores are written under its string form |
| Repository.RecordRoundTrip | src/java/br/ufmg/engsoft/reprova/database/QuestionDAO.java:88-90 | a record written into a document is read back unchanged |
| Repository.ParseRecord | src/java/br/ufmg/engsoft/reprova/database/QuestionDAO.java:88-90 | reading a document's record back yields no null inner map, and each semester carries the scores stored under its key |
| Repository.ToDocument | src/java/br/ufmg/engsoft/reprova/database/QuestionDAO.java:178-188 | the written document carries the question's texts, pvt and every semester's scores under its key. It never carries a "type" key. It carries optCount and options exactly for a multiple-choice question. |
| Repository.ParseDoc | src/java/br/ufmg/engsoft/reprova/database/QuestionDAO.java:79-100 | `parseDoc` succeeds iff the document's theme and description are non-empty and its record keys are semesters. The question carries the document's identifier, texts, pvt and record. It is multiple-choice iff the "type" key is "multiple_choice", and then carries the document's optCount and options. Every failure becomes the same IllegalArgumentException. |
| Repository.DocumentRoundTrip | src/java/br/ufmg/engsoft/reprova/database/QuestionDAO.java:178-183 | a well-formed question written by `add` or `update` reads back with the same six fields, always as an open question |
| Repository.CheckChoice | src/java/br/ufmg/engsoft/reprova/database/QuestionDAO.java:185-201 | an open question always passes. A multiple-choice question passes iff its options are non-null, their size equals OPTIONS, optCount parses to that size, and the size is at least 2. Null options throw NullPointerException. A size other than OPTIONS throws the options error. Otherwise an unparsable optCount throws NumberFormatException, and a parsable one never throws. |
| Repository.CheckChoiceRefuses | src/java/br/ufmg/engsoft/reprova/database/QuestionDAO.java:194-200 | once the size matches OPTIONS, a mismatched or too small optCount makes the call return false rather than throw |
| Repository.FindFirst | src/java/br/ufmg/engsoft/reprova/database/QuestionDAO.java:113-116 | finds the first entry under the identifier, or reports that none has it |
| Repository.Lookup | src/java/br/ufmg/engsoft/reprova/database/QuestionDAO.java:109-122 | a null id throws. A missing id yields null. Otherwise the first document under the id is read back by `parseDoc`: a parsable one yields that question, carrying the id, and a corrupt one throws. |
| Repository.SelectsIffFilters | src/java/br/ufmg/engsoft/reprova/database/QuestionDAO.java:135-146 | a document is selected iff it satisfies every non-null filter |
| Repository.SelectedExactly | src/java/br/ufmg/engsoft/reprova/database/QuestionDAO.java:144-146 | an entry is selected iff it is stored and passes the filters |
| Repository.ListFromExactly | src/java/br/ufmg/engsoft/reprova/database/QuestionDAO.java:148-154 | a successful listing holds one question per selected entry, in storage order. Each is that entry's document, without its statement, read back by `parseDoc` under the entry's id. Each satisfies every filter. |
| Repository.ListFrom | src/java/br/ufmg/engsoft/reprova/database/QuestionDAO.java:148-154 | a listing holds at most one question per entry, and its only failure is a corrupt document |
| Repository.ListFromSucceeds | src/java/br/ufmg/engsoft/reprova/database/QuestionDAO.java:130-133 | a listing succeeds exactly when every selected entry's document, without its statement, parses |
| Repository.ListFromFailureLasts | src/java/br/ufmg/engsoft/reprova/database/QuestionDAO.java:150-152 | once a selected document fails to parse, the whole listing fails with that error |
| Repository.NoFilterSelectsAll | src/java/br/ufmg/engsoft/reprova/database/QuestionDAO.java:144-145 | with both filters null, the selected entries are all the stored entries, in storage order |
| Repository.ListingMatchesFilters | src/java/br/ufmg/engsoft/reprova/database/QuestionDAO.java:134-155 | `list(theme, pvt)` succeeds exactly when every stored document matching the non-null filters parses. It then selects exactly those entries and returns, in storage order, each one's document read back without its statement. |
| Repository.Listing | src/java/br/ufmg/engsoft/reprova/database/QuestionDAO.java:134-155 | `list` holds at most one question per stored entry, and throws only for a corrupt document |
| Repository.NullArgumentsRejected | src/java/br/ufmg/engsoft/reprova/database/QuestionDAO.java:165-166 | a null argument to `get`, `add`, `update` or `remove` throws and changes nothing |
| Repository.OptionsPolicyAbortsFirst | src/java/br/ufmg/engsoft/reprova/database/QuestionDAO.java:190-192 | an options size other than OPTIONS throws before any other check, in `add` and in `update` |
| Repository.RefusalPrecedesIdCheck | src/java/br/ufmg/engsoft/reprova/database/QuestionDAO.java:194-206 | a refused multiple-choice question returns false and writes nothing, before `add` looks at the id |
| Repository.AddRejectsStoredQuestion | src/java/br/ufmg/engsoft/reprova/database/QuestionDAO.java:203-206 | `add` of a question that already has an id throws and writes nothing |
| Repository.FreshId | src/java/br/ufmg/engsoft/reprova/database/QuestionDAO.java:208-210 | the identifier `add` hands out is not yet in use |
| Repository.AddedConsistent | src/java/br/ufmg/engsoft/reprova/database/QuestionDAO.java:208-212 | `add` keeps identifiers distinct and below the counter |
| Repository.AddAppendsOne | src/java/br/ufmg/engsoft/reprova/database/QuestionDAO.java:178-212 | a successful `add` appends exactly the question's document under a fresh id, and returns true |
| Repository.AddThenGet | src/java/br/ufmg/engsoft/reprova/database/QuestionDAO.java:164-213 | after `add`, `get` of the new id yields a question equal to the added one once its id is filled in |
| Repository.UpdateOfMissingId | src/java/br/ufmg/engsoft/reprova/database/QuestionDAO.java:264-276 | `update` of an id that is not stored returns the store's acknowledgement and changes nothing |
| Repository.UpdateReplacesDocument | src/java/br/ufmg/engsoft/reprova/database/QuestionDAO.java:264-267 | `update` of a stored id replaces that document in place, ignoring the question's own id. `get` then yields the new fields. |
| Repository.UpdatedConsistent | src/java/br/ufmg/engsoft/reprova/database/QuestionDAO.java:264-267 | `update` keeps identifiers distinct and below the counter |
| Repository.RemoveOfMissingId | src/java/br/ufmg/engsoft/reprova/database/QuestionDAO.java:290-299 | `remove` of an id that `get` does not find returns false and deletes nothing |
| Repository.RemovedConsistent | src/java/br/ufmg/engsoft/reprova/database/QuestionDAO.java:290-296 | `remove` keeps identifiers distinct and below the counter |
| Repository.RemoveThenGetFindsNothing | src/java/br/ufmg/engsoft/reprova/database/QuestionDAO.java:286-300 | a successful `remove` deletes exactly the first entry under the id. Every other entry stays, in order, and the counter is unchanged. Afterwards `get` of that id finds nothing. |
| Repository.AddGetRemoveScenario | src/java/br/ufmg/engsoft/reprova/database/QuestionDAO.java:164-300 | a new open question is added, read back equal, removed, and then not found |
| Repository.Added | src/java/br/ufmg/engsoft/reprova/database/QuestionDAO.java:164-213 | `add` changes the store only when it returns true, and then appends the question's document under the next identifier and advances the counter |
| Repository.Updated | src/java/br/ufmg/engsoft/reprova/database/QuestionDAO.java:222-277 | `update` keeps the counter, the number of entries and every entry's identifier. It changes the store only when it returns the acknowledgement. |
| Repository.Removed | src/java/br/ufmg/engsoft/reprova/database/QuestionDAO.java:286-300 | `remove` keeps the counter. It changes the store only when it returns true, and then drops exactly one entry. |
| Repository.QuestionDAO.constructor | src/java/br/ufmg/engsoft/reprova/database/QuestionDAO.java:56-62 | the repository opens over the collection as it already stands |
| Repository.QuestionDAO.Get | src/java/br/ufmg/engsoft/reprova/database/QuestionDAO.java:109-122 | `get(id)` over the repository's own collection is `Lookup`: a null id throws, a missing id yields null, a found document is read back by `parseDoc` |
| Repository.QuestionDAO.List | src/java/br/ufmg/engsoft/reprova/database/QuestionDAO.java:134-155 | the loop over the collection returns what `Listing` says, including the first parse failure |
| Repository.QuestionDAO.Add | src/java/br/ufmg/engsoft/reprova/database/QuestionDAO.java:164-213 | the collection after the call and the result are those of `Added`. The identifier invariant is kept. |
| Repository.QuestionDAO.Update | src/java/br/ufmg/engsoft/reprova/database/QuestionDAO.java:222-277 | the collection after the call and the result are those of `Updated`. The identifier invariant is kept. |
| Repository.QuestionDAO.Remove | src/java/br/ufmg/engsoft/reprova/database/QuestionDAO.java:286-300 | the collection after the call and the result are those of `Removed`. The identifier invariant is kept. |
| Service.Decode | src/java/br/ufmg/engsoft/reprova/services/QuestionService.java:27-35 | a body that does not decode fails with no cause. A body whose build fails fails with that build error. A body that builds yields exactly what `build()` returns. |
| Service.Create | src/java/br/ufmg/engsoft/reprova/services/QuestionService.java:25-37 | a bad body throws without touching the repository. Otherwise the result and the new collection are those of `add`. |
| Service.Update | src/java/br/ufmg/engsoft/reprova/services/QuestionService.java:45-57 | a bad body throws without touching the repository. Otherwise the result and the new collection are those of `update`. |
| Service.GetById | src/java/br/ufmg/engsoft/reprova/services/QuestionService.java:64-66 | the repository's `get`, that is `Lookup` over its collection: a null id throws, a missing id yields null, a found question carries the id |
| Service.PrivacyFilter | src/java/br/ufmg/engsoft/reprova/services/QuestionService.java:74 | an authenticated caller gets no privacy filter, anyone else `pvt == false` |
| Service.GetAll | src/java/br/ufmg/engsoft/reprova/services/QuestionService.java:73-75 | returns the listing with no theme filter and the caller's privacy filter |
| Service.UnauthenticatedSeesOnlyPublic | src/java/br/ufmg/engsoft/reprova/services/QuestionService.java:73-75 | an unauthenticated listing succeeds exactly when every public stored document parses, and then holds only public questions, without statements |
| Service.AuthenticatedSeesAll | src/java/br/ufmg/engsoft/reprova/services/QuestionService.java:73-75 | an authenticated listing succeeds exactly when every stored document parses, and then holds every stored entry's document, in storage order, read back without its statement |
| Service.DeleteById | src/java/br/ufmg/engsoft/reprova/services/QuestionService.java:83-85 | the result and the new collection are those of `remove` |

## Findings

| source | as written | input that shows it | evidently intended | confidence | as-written member | corrected member |
|---|---|---|---|---|---|---|
| src/java/br/ufmg/engsoft/reprova/model/Question.java:70-73 | `equals` calls `this.id.equals` and `this.statement.equals`, but both fields are documented as nullable | two distinct but equal question objects with id "0", theme "sets", description "intro" and a null statement: `equals` throws NullPointerException | null-safe comparison of each field, so that equal questions are equal | high, not executed | Questions.EqualsAsWritten (shown by Questions.EqualsNullStatementThrows) | Questions.Equals (Questions.EqualsIsFieldwise, Questions.EqualsSymmetricTransitive, Questions.EqualsImpliesSameHash) |

## Left out

- The HTTP layer is not modelled. This covers QuestionController, AuthController, the service handlers and the Reprova entry point. Authentication reaches the model only as the `auth` flag of `getAll`.
- The document store is modelled as an ordered sequence of entries. Identifiers are decimal strings of a counter.
  - The collection the repository opens is any store whose identifiers follow that scheme: distinct decimal strings below the counter.
  - MongoDB's ObjectId generation is not modelled.
  - The check that an id string is a valid ObjectId is not modelled. `new ObjectId(id)` throwing is absent.
  - The store's result order is taken to be insertion order.
- `update`'s write is always applied. Its result is an injected acknowledgement flag that stays the same for the repository's lifetime.
- OPTIONS is injected as an integer. The model does not cover it being unset or non-numeric, which throws NumberFormatException in the source.
- The JSON layer is not modelled: `Json`, `Document.toJson` and request bodies as text. A document is taken to reach the builder as its keys passed to the setters of the same name, with its identifier passed to `id`. A request body arrives as the builder fields it sets, or as undecodable.
- Semester is not part of this model. Its string form is modelled as the canonical token "year.1" / "year.2", decoded by `Semesters.ParseKey`. Its hash code is a stand-in, `Questions.SemesterHash`.
- Record scores are Java `float`s. They are modelled as their `floatToIntBits` patterns, on which `Float.equals` and `Float.hashCode` work. No float arithmetic is done on them.
- `Questions.HashCode` sums a map's entry hashes over its keys in an unspecified order, which is sound because addition commutes. Characters are Dafny `char`s, which are Unicode scalar values rather than UTF-16 code units. So `String.hashCode` over surrogate pairs is not modelled.
- Questions.Head: keeps up to 50 Unicode scalar values of the statement. Java's `substring` in `toString` keeps 50 UTF-16 code units and may split a surrogate pair, so the two differ for statements outside the Basic Multilingual Plane.
- `Questions.ToString` takes the record's own `toString` as a parameter. That text depends on hash-map iteration order.
- `Decimal.ParseInteger` accepts only ASCII digits. `Integer.parseInt` also accepts other Unicode decimal digits.
- In a stored document, a null statement and a missing statement key are the same `None`. The listing's projection sets it to `None`.
- Repository.Document: a stored document always has a theme, a description, a record and a pvt flag, and no inner score map is null. Documents the repository did not write may lack these. A missing "record" or "pvt" would reach the builder as its default, the empty map or `pvt = true`. A null theme, description or inner map would make `parseDoc` throw. Neither shape can be represented, so the builder's defaults are never reached through the repository.
- Logging and the repository's singleton construction are not modelled.
- QuestionService parses bodies with `Question.Builder`, which does not exist; it is read as QuestionBuilder.
- The repository's `Error` and the service's `Error` wrapping are modelled as `Failure` values.

=== FILE: decimal.dfy ===
/**
 * Decimal text for integers: Java's `Integer.valueOf(String)` (used by the
 * repository on `optCount`), and the decimal rendering used for Semester keys
 * and store-generated identifiers, with the round-trips between them.
 */
module Decimal {
  import opened Wrappers

  /** Bounds of a Java `int`. */
  const IntMin: int := -0x8000_0000
  const IntMax: int := 0x7fff_ffff

  predicate IsDigit(c: char) {
    '0' <= c <= '9'
  }

  predicate AllDigits(s: string) {
    forall i :: 0 <= i < |s| ==> IsDigit(s[i])
  }

  function DigitChar(d: nat): (c: char)
    requires d < 10
    ensures IsDigit(c) && c as int - '0' as int == d
  {
    ('0' as int + d) as char
  }

  /** The number a string of decimal digits denotes (leading zeros allowed). */
  function DigitsValue(s: string): (n: nat)
    requires AllDigits(s)
  {
    if s == [] then 0
    else DigitsValue(s[..|s| - 1]) * 10 + (s[|s| - 1] as int - '0' as int)
  }

  /** Canonical decimal form of a natural number: no leading zero unless it is "0". */
  function NatToString(n: nat): (s: string)
    ensures |s| >= 1 && AllDigits(s)
    ensures s[0] == '0' ==> n == 0 && s == "0"
  {
    if n < 10 then [DigitChar(n)]
    else NatToString(n / 10) + [DigitChar(n % 10)]
  }

  lemma {:induction false} NatToStringRoundTrip(n: nat)
    ensures DigitsValue(NatToString(n)) == n
  {
    if n >= 10 {
      var s := NatToString(n);
      NatToStringRoundTrip(n / 10);
      assert s[..|s| - 1] == NatToString(n / 10);
    }
  }

  /** Decimal form of an integer, with a leading '-' when negative. */
  function IntToString(i: int): (s: string)
    ensures |s| >= 1
  {
    if i < 0 then "-" + NatToString(-i) else NatToString(i)
  }

  /**
   * The grammar of `Integer.parseInt(s, 10)` over ASCII digits, without the
   * range check: an optional '+' or '-' followed by at least one digit.
   */
  function ParseInteger(s: string): (r: Option<int>)
    ensures r.Some? ==>
              |s| >= 1 && AllDigits(s[1..]) && (IsDigit(s[0]) || (|s| >= 2 && (s[0] == '-' || s[0] == '+')))
    ensures AllDigits(s) && s != [] ==> r == Some(DigitsValue(s))
    ensures |s| >= 2 && s[0] == '-' && AllDigits(s[1..]) ==> r == Some(-(DigitsValue(s[1..]) as int))
    ensures |s| >= 2 && s[0] == '+' && AllDigits(s[1..]) ==> r == Some(DigitsValue(s[1..]))
  {
    if |s| >= 2 && (s[0] == '-' || s[0] == '+') && AllDigits(s[1..]) then
      var magnitude: int := DigitsValue(s[1..]);
      Some(if s[0] == '-' then -magnitude else magnitude)
    else if |s| >= 1 && AllDigits(s) then
      Some(DigitsValue(s))
    else
      None
  }

  lemma IntToStringRoundTrip(i: int)
    ensures ParseInteger(IntToString(i)) == Some(i)
  {
    var s := IntToString(i);
    if i < 0 {
      var digits := NatToString(-i);
      assert s[0] == '-' && s[1..] == digits;
      NatToStringRoundTrip(-i);
    } else {
      assert IsDigit(s[0]);
      NatToStringRoundTrip(i);
    }
  }

  /**
   * `Integer.valueOf(s)`: `None` models the NumberFormatException thrown for a
   * null string, a string outside the grammar, or a value outside `int`.
   */
  function ValueOf(s: Option<string>): (r: Option<int>)
    ensures r.Some? ==> s.Some? && ParseInteger(s.value) == r && IntMin <= r.value <= IntMax
    ensures s.Some? && ParseInteger(s.value).Some? && IntMin <= ParseInteger(s.value).value <= IntMax
            ==> r.Some?
  {
    match s
    case None => None
    case Some(t) =>
      match ParseInteger(t)
      case None => None
      case Some(n) => if IntMin <= n <= IntMax then Some(n) else None
  }

  /** Every `int` written in decimal is read back by `Integer.valueOf`. */
  lemma ValueOfIntToString(i: int)
    requires IntMin <= i <= IntMax
    ensures ValueOf(Some(IntToString(i))) == Some(i)
  {
    IntToStringRoundTrip(i);
  }
}

=== FILE: question.dfy ===
/**
 * The question entity: the abstract Question with its six final fields and its
 * two variants, OpenQuestion (no extra fields) and MultipleChoiceQuestion
 * (`optCount` and `options`), as one immutable datatype with two constructors.
 * Java's equals, hashCode and toString are modelled over it.
 */
module Questions {
  import opened Wrappers
  import Semesters
  import Decimal

  /**
   * A score of the record, kept as the bit pattern `Float.floatToIntBits`
   * gives: `Float.equals` and `Float.hashCode` both work on it, and no
   * arithmetic is ever done on scores.
   */
  datatype Score = Score(bits: int)

  /** Scores of one semester, by class-section label. */
  type ClassScores = map<string, Score>

  /** `Map<Semester, Map<String, Float>>` once no inner map is null. */
  type Record = map<Semesters.Semester, ClassScores>

  /** `None` in `id` or `statement` (or in `optCount`, `options`) is a Java null. */
  datatype Question =
    | Open(id: Option<string>, theme: string, description: string,
           statement: Option<string>, record: Record, pvt: bool)
    | MultipleChoice(id: Option<string>, theme: string, description: string,
                     statement: Option<string>, record: Record, pvt: bool,
                     optCount: Option<string>, options: Option<seq<string>>)

  /** The documented field invariants: theme and description are neither null nor empty. */
  predicate WellFormed(q: Question) {
    q.theme != "" && q.description != ""
  }

  /** What `Question.equals` can throw. */
  datatype Thrown = NullPointer

  /**
   * Question equality as evidently intended: all six common fields compared,
   * a null `id` or `statement` equal only to null. The rest of the model uses
   * this one. `other == None` stands for null or an object of another class,
   * which nothing equals.
   */
  function Equals(q: Question, other: Option<Question>): (equal: bool)
    ensures equal ==> other.Some?
    ensures other == Some(q) ==> equal
  {
    match other
    case None => false
    case Some(o) =>
      q.id == o.id && q.theme == o.theme && q.description == o.description &&
      q.statement == o.statement && q.record == o.record && q.pvt == o.pvt
  }

  /**
   * `Question.equals(Object)` as written; `identical` stands for the
   * `obj == this` shortcut. The fields are compared with
   * `this.f.equals(other.f)`, so it throws exactly when `id` is null, or when
   * `statement` is null and the comparison got that far; whenever it returns,
   * it returns what `Equals` does.
   */
  function EqualsAsWritten(q: Question, other: Option<Question>, identical: bool): (r: Result<bool, Thrown>)
    requires identical ==> other == Some(q)
    ensures r.Failure? <==>
              !identical && other.Some? &&
              (q.id.None? ||
               (q.id == other.value.id && q.theme == other.value.theme &&
                q.description == other.value.description && q.statement.None?))
    ensures r.Success? ==> r.value == Equals(q, other)
  {
    if identical then Success(true)
    else
      match other
      case None => Success(false)
      case Some(o) =>
        if q.id.None? then Failure(NullPointer)
        else if q.id != o.id || q.theme != o.theme || q.description != o.description then Success(false)
        else if q.statement.None? then Failure(NullPointer)
        else Success(q.statement == o.statement && q.record == o.record && q.pvt == o.pvt)
  }

  /**
   * A stored question without a statement, compared with a copy of itself
   * (a distinct object): the written `equals` throws where the two are equal.
   */
  lemma EqualsNullStatementThrows()
    ensures var q := Open(Some("0"), "sets", "intro", None, map[], false);
            EqualsAsWritten(q, Some(q), false) == Failure(NullPointer) && Equals(q, Some(q))
  {
  }

  /** Equality compares exactly the six common fields, and nothing else. */
  lemma EqualsIsFieldwise(q: Question, o: Question)
    ensures Equals(q, Some(o)) <==>
              q.id == o.id && q.theme == o.theme && q.description == o.description &&
              q.statement == o.statement && q.record == o.record && q.pvt == o.pvt
  {
  }

  /** Equality is an equivalence relation on questions. */
  lemma EqualsSymmetricTransitive(a: Question, b: Question, c: Question)
    ensures Equals(a, Some(b)) ==> Equals(b, Some(a))
    ensures Equals(a, Some(b)) && Equals(b, Some(c)) ==> Equals(a, Some(c))
  {
  }

  /** Two multiple-choice questions differing only in their options are equal. */
  lemma EqualsIgnoresOptions(q: Question, optCount: Option<string>, options: Option<seq<string>>)
    requires q.MultipleChoice?
    ensures Equals(q, Some(q.(optCount := optCount, options := options)))
  {
  }

  /** An open question equals a multiple-choice one with the same common fields. */
  lemma OpenEqualsMultipleChoice(q: Question)
    requires q.MultipleChoice?
    ensures Equals(Open(q.id, q.theme, q.description, q.statement, q.record, q.pvt), Some(q))
    ensures Equals(q, Some(Open(q.id, q.theme, q.description, q.statement, q.record, q.pvt)))
  {
  }

  // ---- hashCode -----------------------------------------------------------

  /** Reduces an integer to Java `int` with two's-complement wrap-around. */
  function Wrap32(x: int): (r: int)
    ensures Decimal.IntMin <= r <= Decimal.IntMax
    ensures Decimal.IntMin <= x <= Decimal.IntMax ==> r == x
  {
    (x - Decimal.IntMin) % 0x1_0000_0000 + Decimal.IntMin
  }

  /** Java `^` on two `int`s. */
  function Xor32(a: int, b: int): (r: int)
    ensures Decimal.IntMin <= r <= Decimal.IntMax
  {
    var x := ((a % 0x1_0000_0000) as bv32 ^ (b % 0x1_0000_0000) as bv32) as int;
    if x > Decimal.IntMax then x - 0x1_0000_0000 else x
  }

  /** `String.hashCode`: h = 31 * h + c over the characters, in `int`. */
  function StringHash(s: string): (h: int) {
    if s == [] then 0 else Wrap32(31 * StringHash(s[..|s| - 1]) + s[|s| - 1] as int)
  }

  function NullableStringHash(s: Option<string>): (h: int) {
    match s
    case None => 0
    case Some(t) => StringHash(t)
  }

  /** `Boolean.hashCode`. */
  function BoolHash(b: bool): (h: int) {
    if b then 1231 else 1237
  }

  /** `Arrays.hashCode` over already computed element hashes, as `Objects.hash` uses it. */
  function ObjectsHash(hs: seq<int>): (h: int)
    ensures Decimal.IntMin <= h <= Decimal.IntMax
  {
    if hs == [] then 1 else Wrap32(31 * ObjectsHash(hs[..|hs| - 1]) + hs[|hs| - 1])
  }

  /** The sum of `f` over a finite set, in any order (addition commutes). */
  ghost function SumOver<K>(keys: set<K>, f: K -> int): (sum: int)
    decreases keys
  {
    if keys == {} then 0
    else
      var k :| k in keys;
      f(k) + SumOver(keys - {k}, f)
  }

  /**
   * A stand-in for `Semester.hashCode`, whose source is not part of this
   * model: the hash of its two fields, the reference by ordinal.
   */
  function SemesterHash(s: Semesters.Semester): (h: int) {
    ObjectsHash([Wrap32(s.year), if s.reference == Semesters.One then 0 else 1])
  }

  /** `Map.hashCode`: the sum of `key.hashCode() ^ value.hashCode()` over the entries. */
  ghost function ScoresHash(m: ClassScores): (h: int) {
    Wrap32(SumOver(m.Keys, k => if k in m then Xor32(StringHash(k), Wrap32(m[k].bits)) else 0))
  }

  ghost function RecordHash(r: Record): (h: int) {
    Wrap32(SumOver(r.Keys, k => if k in r then Xor32(SemesterHash(k), ScoresHash(r[k])) else 0))
  }

  /** `Question.hashCode`: `Objects.hash` over the six common fields. */
  ghost function HashCode(q: Question): (h: int)
    ensures Decimal.IntMin <= h <= Decimal.IntMax
  {
    ObjectsHash([NullableStringHash(q.id), StringHash(q.theme), StringHash(q.description),
                 NullableStringHash(q.statement), RecordHash(q.record), BoolHash(q.pvt)])
  }

  /** Equal questions have equal hash codes: `Equals` agrees with `hashCode`. */
  lemma EqualsImpliesSameHash(a: Question, b: Question)
    requires Equals(a, Some(b))
    ensures HashCode(a) == HashCode(b)
  {
  }

  // ---- toString -----------------------------------------------------------

  /** The first (at most) 50 characters of a statement. */
  function Head(s: string): (h: string)
    ensures |h| <= 50 && h <= s
    ensures |s| <= 50 ==> h == s
    ensures |s| > 50 ==> |h| == 50
  {
    if |s| <= 50 then s else s[..50]
  }

  function NullableText(s: Option<string>): (text: string) {
    match s
    case None => "null"
    case Some(t) => t
  }

  /** The "pvt" line of `toString`, the last one when the statement is null. */
  function PvtLine(pvt: bool): (line: string) {
    "  pvt: " + (if pvt then "true" else "false") + "\n"
  }

  /**
   * `Question.toString`. `recordText` is the record's own `toString`, which
   * depends on hash-map iteration order and is taken as given.
   */
  function ToString(q: Question, recordText: string): (text: string)
    ensures |text| > 10 && text[..10] == "Question:\n" && text[|text| - 1] == '\n'
  {
    "Question:\n"
    + "  id: " + NullableText(q.id) + "\n"
    + "  theme: " + q.theme + "\n"
    + "  desc: " + q.description + "\n"
    + "  record: " + recordText + "\n"
    + PvtLine(q.pvt)
    + (match q.statement
       case None => ""
       case Some(s) => "  head: " + Head(s) + "\n")
  }

  /**
   * The statement shows up in `toString` only as a final "head" line holding
   * at most its first 50 characters, and only when it is not null.
   */
  lemma ToStringShowsStatementHead(q: Question, recordText: string)
    ensures q.statement.None? ==>
              var text := ToString(q, recordText);
              |text| >= |PvtLine(q.pvt)| && text[|text| - |PvtLine(q.pvt)|..] == PvtLine(q.pvt)
    ensures q.statement.Some? ==>
              ToString(q, recordText) ==
              ToString(q.(statement := None), recordText) + "  head: " + Head(q.statement.value) + "\n"
  {
  }
}

=== FILE: question_builder.dfy ===
/**
 * QuestionBuilder: chained setters over nullable fields, and `build()`, which
 * validates theme, description and record, defaults record and pvt, and picks
 * the variant from the `type` discriminator. `BuildResult` is what `build()`
 * computes, as a function of the builder's fields; the class carries the
 * mutable builder itself.
 */
module Builders {
  import opened Wrappers
  import opened Questions
  import Semesters

  /** A record as a caller may supply it: any inner map may be null. */
  type RawRecord = map<Semesters.Semester, Option<ClassScores>>

  /** The builder's fields; `kind` is the Java field `type`. */
  datatype Fields = Fields(
    id: Option<string>,
    theme: Option<string>,
    description: Option<string>,
    statement: Option<string>,
    record: Option<RawRecord>,
    pvt: bool,
    kind: Option<string>,
    optCount: Option<string>,
    options: Option<seq<string>>)

  /** A fresh builder: every field null, except `pvt`, which starts out true. */
  const Initial: Fields := Fields(None, None, None, None, None, true, None, None, None)

  /** The discriminator value that selects MultipleChoiceQuestion. */
  const MultipleChoiceType: string := "multiple_choice"

  /** The IllegalArgumentException messages of `build()`. */
  datatype BuildError = NullTheme | EmptyTheme | NullDescription | EmptyDescription | NullInnerRecord

  predicate NoNullInner(r: RawRecord) {
    forall k :: k in r ==> r[k].Some?
  }

  function Unwrap(r: RawRecord): (unwrapped: Record)
    requires NoNullInner(r)
  {
    map k | k in r :: r[k].value
  }

  /** Theme and description are both non-null and non-empty. */
  predicate TextsPresent(b: Fields) {
    b.theme.Some? && b.theme.value != "" && b.description.Some? && b.description.value != ""
  }

  /** The record `build()` stores: the empty map for null, else the given map. */
  function RecordOf(b: Fields): (record: Record)
    requires b.record.Some? ==> NoNullInner(b.record.value)
  {
    if b.record.None? then map[] else Unwrap(b.record.value)
  }

  /** What `build()` returns or throws, given the builder's fields. */
  function BuildResult(b: Fields): (r: Result<Question, BuildError>)
    ensures r.Success? <==> TextsPresent(b) && (b.record.Some? ==> NoNullInner(b.record.value))
    ensures r.Success? ==> WellFormed(r.value)
    ensures r.Success? ==> (r.value.MultipleChoice? <==> b.kind == Some(MultipleChoiceType))
    ensures r.Success? ==>
              && r.value.id == b.id && Some(r.value.theme) == b.theme
              && Some(r.value.description) == b.description
              && r.value.statement == b.statement && r.value.pvt == b.pvt
    ensures r.Success? ==> r.value.record == RecordOf(b)
    ensures r.Success? && b.record.None? ==> r.value.record == map[]
    ensures r.Success? && b.record.Some? ==>
              && r.value.record.Keys == b.record.value.Keys
              && forall k :: k in r.value.record ==> b.record.value[k] == Some(r.value.record[k])
    ensures r.Success? && r.value.MultipleChoice? ==>
              r.value.optCount == b.optCount && r.value.options == b.options
  {
    if b.theme.None? then Failure(NullTheme)
    else if b.theme.value == "" then Failure(EmptyTheme)
    else if b.description.None? then Failure(NullDescription)
    else if b.description.value == "" then Failure(EmptyDescription)
    else if b.record.Some? && !NoNullInner(b.record.value) then Failure(NullInnerRecord)
    else if b.kind == Some(MultipleChoiceType) then
      Success(MultipleChoice(b.id, b.theme.value, b.description.value, b.statement,
                             RecordOf(b), b.pvt, b.optCount, b.options))
    else
      Success(Open(b.id, b.theme.value, b.description.value, b.statement, RecordOf(b), b.pvt))
  }

  /** A null or empty theme is rejected first, whatever the description. */
  lemma BuildRejectsMissingTheme(b: Fields)
    requires b.theme.None? || b.theme == Some("")
    ensures BuildResult(b) == Failure(if b.theme.None? then NullTheme else EmptyTheme)
  {
  }

  /** With a valid theme, a null or empty description is rejected. */
  lemma BuildRejectsMissingDescription(b: Fields)
    requires b.theme.Some? && b.theme.value != ""
    requires b.description.None? || b.description == Some("")
    ensures BuildResult(b) == Failure(if b.description.None? then NullDescription else EmptyDescription)
  {
  }

  /** A null inner record map is rejected; otherwise the record passes through. */
  lemma BuildRejectsNullInnerRecord(b: Fields, k: Semesters.Semester)
    requires TextsPresent(b) && b.record.Some? && k in b.record.value && b.record.value[k].None?
    ensures BuildResult(b) == Failure(NullInnerRecord)
  {
  }

  /**
   * A fresh builder given only a theme and a description builds a private
   * open question with an empty record and null id and statement.
   */
  lemma BuildDefaults(theme: string, description: string)
    requires theme != "" && description != ""
    ensures BuildResult(Initial.(theme := Some(theme), description := Some(description)))
            == Success(Open(None, theme, description, None, map[], true))
  {
  }

  /** Any `type` other than "multiple_choice", null included, gives an open question. */
  lemma BuildOpenUnlessMultipleChoice(b: Fields)
    requires BuildResult(b).Success? && b.kind != Some(MultipleChoiceType)
    ensures BuildResult(b).value ==
            Open(b.id, b.theme.value, b.description.value, b.statement, RecordOf(b), b.pvt)
  {
  }

  /** `id`, `statement`, `optCount` and `options` are never validated. */
  lemma BuildIgnoresUnvalidatedFields(b: Fields, id: Option<string>, statement: Option<string>,
                                      optCount: Option<string>, options: Option<seq<string>>)
    ensures BuildResult(b).Success? ==
            BuildResult(b.(id := id, statement := statement, optCount := optCount, options := options)).Success?
  {
  }

  /** The loop of `build()` over the record's entries, looking for a null inner map. */
  method AllInnerPresent(r: RawRecord) returns (ok: bool)
    ensures ok <==> NoNullInner(r)
  {
    var remaining := r.Keys;
    while remaining != {}
      invariant remaining <= r.Keys
      invariant forall k :: k in r && k !in remaining ==> r[k].Some?
      decreases remaining
    {
      var k :| k in remaining;
      if r[k].None? {
        return false;
      }
      remaining := remaining - {k};
    }
    return true;
  }

  class QuestionBuilder {
    var id: Option<string>
    var theme: Option<string>
    var description: Option<string>
    var statement: Option<string>
    var record: Option<RawRecord>
    var pvt: bool
    var kind: Option<string>
    var optCount: Option<string>
    var options: Option<seq<string>>

    function State(): (fields: Fields)
      reads this
    {
      Fields(id, theme, description, statement, record, pvt, kind, optCount, options)
    }

    constructor ()
      ensures State() == Initial
    {
      id, theme, description, statement, record := None, None, None, None, None;
      pvt, kind, optCount, options := true, None, None, None;
    }

    method Id(id: Option<string>) returns (self: QuestionBuilder)
      modifies this
      ensures self == this && State() == old(State()).(id := id)
    {
      this.id := id;
      return this;
    }

    method Theme(theme: Option<string>) returns (self: QuestionBuilder)
      modifies this
      ensures self == this && State() == old(State()).(theme := theme)
    {
      this.theme := theme;
      return this;
    }

    method Description(description: Option<string>) returns (self: QuestionBuilder)
      modifies this
      ensures self == this && State() == old(State()).(description := description)
    {
      this.description := description;
      return this;
    }

    method Statement(statement: Option<string>) returns (self: QuestionBuilder)
      modifies this
      ensures self == this && State() == old(State()).(statement := statement)
    {
      this.statement := statement;
      return this;
    }

    method Record(record: Option<RawRecord>) returns (self: QuestionBuilder)
      modifies this
      ensures self == this && State() == old(State()).(record := record)
    {
      this.record := record;
      return this;
    }

    method Pvt(pvt: bool) returns (self: QuestionBuilder)
      modifies this
      ensures self == this && State() == old(State()).(pvt := pvt)
    {
      this.pvt := pvt;
      return this;
    }

    method Type(kind: Option<string>) returns (self: QuestionBuilder)
      modifies this
      ensures self == this && State() == old(State()).(kind := kind)
    {
      this.kind := kind;
      return this;
    }

    method OptCount(optCount: Option<string>) returns (self: QuestionBuilder)
      modifies this
      ensures self == this && State() == old(State()).(optCount := optCount)
    {
      this.optCount := optCount;
      return this;
    }

    method Options(options: Option<seq<string>>) returns (self: QuestionBuilder)
      modifies this
      ensures self == this && State() == old(State()).(options := options)
    {
      this.options := options;
      return this;
    }

    /**
     * `build()`. Besides returning `BuildResult`, it overwrites a null record
     * with the empty map once theme and description have passed.
     */
    method Build() returns (r: Result<Question, BuildError>)
      modifies this`record
      ensures r == BuildResult(old(State()))
      ensures State() == old(State()).(record :=
                if old(record).None? && TextsPresent(old(State())) then Some(map[]) else old(record))
    {
      if theme.None? {
        return Failure(NullTheme);
      }
      if theme.value == "" {
        return Failure(EmptyTheme);
      }
      if description.None? {
        return Failure(NullDescription);
      }
      if description.value == "" {
        return Failure(EmptyDescription);
      }
      if record.None? {
        record := Some(map[]);
      } else {
        var ok := AllInnerPresent(record.value);
        if !ok {
          return Failure(NullInnerRecord);
        }
      }
      var stored := Unwrap(record.value);
      if kind == Some(MultipleChoiceType) {
        return Success(MultipleChoice(id, theme.value, description.value, statement,
                                      stored, pvt, optCount, options));
      }
      return Success(Open(id, theme.value, description.value, statement, stored, pvt));
    }
  }
}

=== FILE: question_dao.dfy ===
/**
 * QuestionDAO: the question repository over a document collection. The
 * collection is an ordered sequence of (id, document) entries with a counter
 * supplying fresh identifiers; the permitted option count (the OPTIONS
 * setting) and whether the store acknowledges writes are injected.
 *
 * The pure functions below (Lookup, Listing, Added, Updated, Removed) say
 * what each operation does to a store value; the class QuestionDAO holds the
 * store in fields and its methods are proved to act as those functions say.
 */
module Repository {
  import opened Wrappers
  import opened Questions
  import Builders
  import Semesters
  import Decimal

  /** The "optCount" and "options" keys written for a multiple-choice question. */
  datatype Choice = Choice(optCount: Option<string>, options: Option<seq<string>>)

  /**
   * A question document. `kind` is the "type" key, which the repository
   * never writes; `record` has its Semester keys turned into strings.
   */
  datatype Document = Document(
    theme: string,
    description: string,
    statement: Option<string>,
    record: map<string, ClassScores>,
    pvt: bool,
    kind: Option<string>,
    choice: Option<Choice>)

  datatype Entry = Entry(id: string, doc: Document)

  /** The collection, in storage order, and the next identifier to hand out. */
  datatype Store = Store(entries: seq<Entry>, nextId: nat)

  /** What the repository throws. */
  datatype DaoError =
    | NullArgument             // IllegalArgumentException: "... mustn't be null"
    | IdAlreadySet             // IllegalArgumentException: "to update use the put method"
    | CorruptDocument          // IllegalArgumentException from parseDoc
    | OptionsPolicy(permitted: int)  // Error: options size differs from OPTIONS
    | NumberFormat             // NumberFormatException from Integer.valueOf(optCount)
    | NullOptions              // NullPointerException from options.size()

  /** A result together with the store after the call. */
  datatype Outcome<T> = Outcome(result: Result<T, DaoError>, store: Store)

  /** The identifier the store generates from its counter. */
  function IdOf(n: nat): (id: string) {
    Decimal.NatToString(n)
  }

  /** Identifiers are decimal counters below `nextId`, and no two entries share one. */
  predicate Consistent(s: Store) {
    && (forall i :: 0 <= i < |s.entries| ==>
          Decimal.AllDigits(s.entries[i].id) && Decimal.DigitsValue(s.entries[i].id) < s.nextId)
    && (forall i, j :: 0 <= i < j < |s.entries| ==> s.entries[i].id != s.entries[j].id)
  }

  // ---- documents ----------------------------------------------------------

  /** The string forms of a record's semesters. */
  function RecordKeys(r: Record): (keys: set<string>) {
    set k | k in r :: Semesters.Key(k)
  }

  /** Each string form decodes to its semester. */
  lemma RecordKeysDecode(r: Record)
    ensures forall k :: k in r ==> Semesters.ParseKey(Semesters.Key(k)) == Some(k)
    ensures forall key :: key in RecordKeys(r) ==>
              Semesters.ParseKey(key).Some? && Semesters.ParseKey(key).value in r
  {
    forall k | k in r
      ensures Semesters.ParseKey(Semesters.Key(k)) == Some(k)
    {
      Semesters.KeyRoundTrip(k);
    }
  }

  /**
   * The record with each Semester key replaced by its string form. Keys never
   * collide (KeyRoundTrip), so no entry is lost.
   */
  function StringifyRecord(r: Record): (d: map<string, ClassScores>)
    ensures forall key :: key in d ==>
              Semesters.ParseKey(key).Some? && Semesters.ParseKey(key).value in r
  {
    RecordKeysDecode(r);
    map key | key in RecordKeys(r) :: r[Semesters.ParseKey(key).value]
  }

  /** Every semester's scores are stored under its string form. */
  lemma StringifiedEntries(r: Record)
    ensures forall k :: k in r ==>
              Semesters.Key(k) in StringifyRecord(r) && StringifyRecord(r)[Semesters.Key(k)] == r[k]
  {
    var d := StringifyRecord(r);
    forall k | k in r
      ensures Semesters.Key(k) in d && d[Semesters.Key(k)] == r[k]
    {
      Semesters.KeyRoundTrip(k);
      assert Semesters.Key(k) in RecordKeys(r);
    }
  }

  /** Reads string keys back as Semesters; `None` when one is not a Semester token. */
  function ParseRecord(d: map<string, ClassScores>): (r: Option<Builders.RawRecord>)
    ensures r.Some? ==> Builders.NoNullInner(r.value)
    ensures r.Some? ==> forall s :: s in r.value ==> Semesters.Key(s) in d && r.value[s] == Some(d[Semesters.Key(s)])
  {
    if forall key :: key in d ==> Semesters.ParseKey(key).Some? then
      var semesters := set key | key in d :: Semesters.ParseKey(key).value;
      Some(map s | s in semesters :: Some(d[Semesters.Key(s)]))
    else
      None
  }

  /** Every key of a stringified record is a Semester token. */
  lemma StringifiedKeysParse(r: Record)
    ensures ParseRecord(StringifyRecord(r)).Some?
  {
    var d := StringifyRecord(r);
    assert forall key :: key in d ==> Semesters.ParseKey(key).Some?;
  }

  /** Every semester of the record is read back with its scores. */
  lemma StringifiedEntriesReturn(r: Record)
    requires ParseRecord(StringifyRecord(r)).Some?
    ensures forall k :: k in r ==>
              k in ParseRecord(StringifyRecord(r)).value &&
              ParseRecord(StringifyRecord(r)).value[k] == Some(r[k])
  {
    var d := StringifyRecord(r);
    var raw := ParseRecord(d).value;
    StringifiedEntries(r);
    forall k | k in r
      ensures k in raw && raw[k] == Some(r[k])
    {
      Semesters.KeyRoundTrip(k);
      var key := Semesters.Key(k);
      assert key in d && d[key] == r[k];
      assert Semesters.ParseKey(key).value == k;
    }
  }

  /** No semester is read back that the record did not have. */
  lemma StringifiedKeysNoExtra(r: Record)
    requires ParseRecord(StringifyRecord(r)).Some?
    ensures forall k :: k in ParseRecord(StringifyRecord(r)).value ==> k in r
  {
    var d := StringifyRecord(r);
    var raw := ParseRecord(d).value;
    forall k | k in raw
      ensures k in r
    {
      var key :| key in d && Semesters.ParseKey(key).value == k;
    }
  }

  /** A record survives the trip through a document unchanged. */
  lemma RecordRoundTrip(r: Record)
    ensures ParseRecord(StringifyRecord(r)).Some?
    ensures Builders.Unwrap(ParseRecord(StringifyRecord(r)).value) == r
  {
    StringifiedKeysParse(r);
    StringifiedEntriesReturn(r);
    StringifiedKeysNoExtra(r);
    UnwrapInverts(ParseRecord(StringifyRecord(r)).value, r);
  }

  lemma UnwrapInverts(raw: Builders.RawRecord, r: Record)
    requires forall k :: k in r ==> k in raw && raw[k] == Some(r[k])
    requires forall k :: k in raw ==> k in r
    ensures Builders.NoNullInner(raw) && Builders.Unwrap(raw) == r
  {
    assert Builders.Unwrap(raw).Keys == r.Keys;
  }

  /** The document `add` and `update` write: no "type" key, choice keys for multiple choice. */
  function ToDocument(q: Question): (d: Document)
    ensures d.kind.None? && (d.choice.Some? <==> q.MultipleChoice?)
    ensures d.theme == q.theme && d.description == q.description
    ensures d.statement == q.statement && d.pvt == q.pvt
    ensures q.MultipleChoice? ==> d.choice == Some(Choice(q.optCount, q.options))
    ensures forall k :: k in q.record ==>
              Semesters.Key(k) in d.record && d.record[Semesters.Key(k)] == q.record[k]
  {
    StringifiedEntries(q.record);
    Document(q.theme, q.description, q.statement, StringifyRecord(q.record), q.pvt, None,
             if q.MultipleChoice? then Some(Choice(q.optCount, q.options)) else None)
  }

  /**
   * `parseDoc`: the document's keys go to the builder's setters of the same
   * name, its identifier to `id`, and the builder is run; any failure is
   * rethrown as a corrupt document.
   */
  function ParseDoc(id: string, d: Document): (r: Result<Question, DaoError>)
    ensures r.Success? <==>
              d.theme != "" && d.description != "" && ParseRecord(d.record).Some?
    ensures r.Failure? ==> r.error == CorruptDocument
    ensures r.Success? ==>
              && r.value.id == Some(id) && r.value.theme == d.theme
              && r.value.description == d.description && r.value.statement == d.statement
              && r.value.pvt == d.pvt
              && r.value.record == Builders.Unwrap(ParseRecord(d.record).value)
              && (r.value.MultipleChoice? <==> d.kind == Some(Builders.MultipleChoiceType))
    ensures r.Success? && r.value.MultipleChoice? ==>
              && r.value.optCount == (if d.choice.Some? then d.choice.value.optCount else None)
              && r.value.options == (if d.choice.Some? then d.choice.value.options else None)
  {
    match ParseRecord(d.record)
    case None => Failure(CorruptDocument)
    case Some(raw) =>
      var fields := Builders.Fields(
        Some(id), Some(d.theme), Some(d.description), d.statement, Some(raw), d.pvt, d.kind,
        if d.choice.Some? then d.choice.value.optCount else None,
        if d.choice.Some? then d.choice.value.options else None);
      match Builders.BuildResult(fields)
      case Success(q) => Success(q)
      case Failure(_) => Failure(CorruptDocument)
  }

  /**
   * A well-formed question written by `add`/`update` reads back with the same
   * six common fields, but always as an open question: the document carries
   * no "type" key for the builder's discriminator.
   */
  lemma DocumentRoundTrip(id: string, q: Question)
    requires WellFormed(q)
    ensures ParseDoc(id, ToDocument(q)) ==
            Success(Open(Some(id), q.theme, q.description, q.statement, q.record, q.pvt))
  {
    RecordRoundTrip(q.record);
  }

  // ---- multiple-choice checks ---------------------------------------------

  /** How the multiple-choice checks end: go on, return false, or throw. */
  datatype Verdict = Proceed | Refuse | Abort(error: DaoError)

  /**
   * The checks `add` and `update` run on a multiple-choice question, in the
   * source's order: options size against OPTIONS (a hard abort), then options
   * size against optCount, then optCount at least 2 (both soft refusals).
   */
  function CheckChoice(q: Question, permitted: int): (v: Verdict)
    ensures q.Open? ==> v == Proceed
    ensures q.MultipleChoice? ==>
              (v == Proceed <==>
                 && q.options.Some? && |q.options.value| == permitted
                 && Decimal.ValueOf(q.optCount) == Some(|q.options.value|)
                 && |q.options.value| >= 2)
    ensures q.MultipleChoice? && q.options.None? ==> v == Abort(NullOptions)
    ensures q.MultipleChoice? && q.options.Some? && |q.options.value| != permitted ==>
              v == Abort(OptionsPolicy(permitted))
    ensures q.MultipleChoice? && q.options.Some? && |q.options.value| == permitted
            ==> (v == Abort(NumberFormat) <==> Decimal.ValueOf(q.optCount).None?)
    ensures q.MultipleChoice? && q.options.Some? && |q.options.value| == permitted
            ==> (v.Abort? <==> Decimal.ValueOf(q.optCount).None?)
  {
    match q
    case Open(_, _, _, _, _, _) => Proceed
    case MultipleChoice(_, _, _, _, _, _, optCount, options) =>
      if options.None? then Abort(NullOptions)
      else if permitted != |options.value| then Abort(OptionsPolicy(permitted))
      else match Decimal.ValueOf(optCount)
        case None => Abort(NumberFormat)
        case Some(n) =>
          if |options.value| != n then Refuse
          else if n < 2 then Refuse
          else Proceed
  }

  /** With options matching OPTIONS, a bad optCount is a soft refusal, never an abort. */
  lemma CheckChoiceRefuses(q: Question, permitted: int)
    requires q.MultipleChoice? && q.options.Some? && |q.options.value| == permitted
    requires Decimal.ValueOf(q.optCount).Some?
    requires Decimal.ValueOf(q.optCount).value != |q.options.value| || Decimal.ValueOf(q.optCount).value < 2
    ensures CheckChoice(q, permitted) == Refuse
  {
  }

  // ---- get ----------------------------------------------------------------

  /** The first entry stored under `id`. */
  function FindFirst(es: seq<Entry>, id: string): (r: Option<nat>)
    ensures r.Some? ==> r.value < |es| && es[r.value].id == id
    ensures r.Some? ==> forall j :: 0 <= j < r.value ==> es[j].id != id
    ensures r.None? ==> forall j :: 0 <= j < |es| ==> es[j].id != id
  {
    if es == [] then None
    else if es[0].id == id then Some(0)
    else match FindFirst(es[1..], id)
      case None => None
      case Some(i) => Some(i + 1)
  }

  /** The first entry under `id` is the one at `i` when no earlier entry has that id. */
  lemma FindFirstAt(es: seq<Entry>, id: string, i: nat)
    requires i < |es| && es[i].id == id
    requires forall j :: 0 <= j < i ==> es[j].id != id
    ensures FindFirst(es, id) == Some(i)
  {
  }

  /** `get(id)`: the parsed question stored under `id`, or `None` when there is none. */
  function Lookup(s: Store, id: Option<string>): (r: Result<Option<Question>, DaoError>)
    ensures id.None? ==> r == Failure(NullArgument)
    ensures r == Success(None) <==>
              id.Some? && forall j :: 0 <= j < |s.entries| ==> s.entries[j].id != id.value
    ensures r.Success? && r.value.Some? ==> r.value.value.id == id
    ensures id.Some? && FindFirst(s.entries, id.value).Some? ==>
              var d := s.entries[FindFirst(s.entries, id.value).value].doc;
              && (ParseDoc(id.value, d).Success? ==> r == Success(Some(ParseDoc(id.value, d).value)))
              && (ParseDoc(id.value, d).Failure? ==> r == Failure(CorruptDocument))
  {
    if id.None? then Failure(NullArgument)
    else match FindFirst(s.entries, id.value)
      case None => Success(None)
      case Some(i) =>
        match ParseDoc(id.value, s.entries[i].doc)
        case Success(q) => Success(Some(q))
        case Failure(e) => Failure(e)
  }

  // ---- list ---------------------------------------------------------------

  /** A single-field equality filter. */
  datatype Filter = ThemeIs(theme: string) | PvtIs(pvt: bool)

  /** The non-null filters of `list(theme, pvt)`, in that order. */
  function Filters(theme: Option<string>, pvt: Option<bool>): (fs: seq<Filter>) {
    (if theme.Some? then [ThemeIs(theme.value)] else [])
    + (if pvt.Some? then [PvtIs(pvt.value)] else [])
  }

  predicate Holds(f: Filter, d: Document) {
    match f
    case ThemeIs(t) => d.theme == t
    case PvtIs(p) => d.pvt == p
  }

  /** `find()` for no filters, `find(and(filters))` otherwise. */
  predicate Selects(fs: seq<Filter>, d: Document) {
    if fs == [] then true else forall i :: 0 <= i < |fs| ==> Holds(fs[i], d)
  }

  /** A document is selected exactly when it satisfies every non-null filter. */
  lemma SelectsIffFilters(theme: Option<string>, pvt: Option<bool>, d: Document)
    ensures Selects(Filters(theme, pvt), d) <==>
              (theme.None? || d.theme == theme.value) && (pvt.None? || d.pvt == pvt.value)
  {
    var fs := Filters(theme, pvt);
    if theme.Some? && pvt.Some? {
      assert fs[0] == ThemeIs(theme.value) && fs[1] == PvtIs(pvt.value);
    } else if theme.Some? {
      assert fs[0] == ThemeIs(theme.value);
    } else if pvt.Some? {
      assert fs[0] == PvtIs(pvt.value);
    }
  }

  /** The `statement` projection the listing applies. */
  function Project(d: Document): (projected: Document) {
    d.(statement := None)
  }

  /** The selected entries of `es`, projected and parsed in storage order; stops at the first corrupt one. */
  function ListFrom(es: seq<Entry>, fs: seq<Filter>): (r: Result<seq<Question>, DaoError>)
    ensures r.Success? ==> |r.value| <= |es|
    ensures r.Failure? ==> r.error == CorruptDocument
    decreases |es|
  {
    if es == [] then Success([])
    else
      var last := es[|es| - 1];
      match ListFrom(es[..|es| - 1], fs)
      case Failure(e) => Failure(e)
      case Success(qs) =>
        if !Selects(fs, last.doc) then Success(qs)
        else match ParseDoc(last.id, Project(last.doc))
          case Failure(e) => Failure(e)
          case Success(q) => Success(qs + [q])
  }

  /** `list(theme, pvt)`. */
  function Listing(s: Store, theme: Option<string>, pvt: Option<bool>): (r: Result<seq<Question>, DaoError>)
    ensures r.Success? ==> |r.value| <= |s.entries|
    ensures r.Failure? ==> r.error == CorruptDocument
  {
    ListFrom(s.entries, Filters(theme, pvt))
  }

  /** The entries the filters select, in storage order. */
  function Selected(es: seq<Entry>, fs: seq<Filter>): (sel: seq<Entry>)
    decreases |es|
  {
    if es == [] then []
    else Selected(es[..|es| - 1], fs)
         + (if Selects(fs, es[|es| - 1].doc) then [es[|es| - 1]] else [])
  }

  /** An entry is selected exactly when it is stored and passes the filters. */
  lemma {:induction false} SelectedExactly(es: seq<Entry>, fs: seq<Filter>, e: Entry)
    ensures e in Selected(es, fs) <==> e in es && Selects(fs, e.doc)
  {
    if es != [] {
      var init := es[..|es| - 1];
      SelectedExactly(init, fs, e);
      assert es == init + [es[|es| - 1]];
    }
  }

  /** Every question a filter admits satisfies it. */
  predicate Admits(fs: seq<Filter>, q: Question) {
    forall i :: 0 <= i < |fs| ==>
      match fs[i]
      case ThemeIs(t) => q.theme == t
      case PvtIs(p) => q.pvt == p
  }

  /**
   * A successful listing holds one question per selected entry, in storage
   * order: that entry's document, without its statement, read back under the
   * entry's identifier. Each question satisfies every filter.
   */
  lemma {:induction false} ListFromExactly(es: seq<Entry>, fs: seq<Filter>)
    requires ListFrom(es, fs).Success?
    ensures var qs := ListFrom(es, fs).value;
            var sel := Selected(es, fs);
            && |qs| == |sel|
            && forall j :: 0 <= j < |qs| ==>
                 && ParseDoc(sel[j].id, Project(sel[j].doc)) == Success(qs[j])
                 && qs[j].id == Some(sel[j].id)
                 && qs[j].statement.None?
                 && Admits(fs, qs[j])
  {
    if es != [] {
      ListFromExactly(es[..|es| - 1], fs);
    }
  }

  /** A listing succeeds exactly when every selected entry's projected document parses. */
  lemma {:induction false} ListFromSucceeds(es: seq<Entry>, fs: seq<Filter>)
    ensures ListFrom(es, fs).Success? <==>
              forall e :: e in es && Selects(fs, e.doc) ==> ParseDoc(e.id, Project(e.doc)).Success?
  {
    if es != [] {
      var init, last := es[..|es| - 1], es[|es| - 1];
      ListFromSucceeds(init, fs);
      assert es == init + [last];
      assert forall e :: e in es <==> e in init || e == last;
    }
  }

  /** A corrupt selected entry makes the listing of every longer prefix fail the same way. */
  lemma {:induction false} ListFromFailureLasts(es: seq<Entry>, k: nat, fs: seq<Filter>)
    requires k <= |es| && ListFrom(es[..k], fs).Failure?
    ensures ListFrom(es, fs) == ListFrom(es[..k], fs)
    decreases |es| - k
  {
    if k < |es| {
      assert es[..k + 1][..k] == es[..k];
      ListFromFailureLasts(es, k + 1, fs);
    } else {
      assert es[..k] == es;
    }
  }

  /** With both filters null, every stored entry is selected, in storage order. */
  lemma {:induction false} NoFilterSelectsAll(es: seq<Entry>)
    ensures Selected(es, Filters(None, None)) == es
  {
    if es != [] {
      NoFilterSelectsAll(es[..|es| - 1]);
      assert es == es[..|es| - 1] + [es[|es| - 1]];
    }
  }

  /**
   * `list(theme, pvt)` returns exactly the stored questions that match every
   * non-null filter, one per matching entry and in storage order: each is its
   * entry's document, read back without the statement.
   */
  lemma ListingMatchesFilters(s: Store, theme: Option<string>, pvt: Option<bool>)
    ensures Listing(s, theme, pvt).Success? <==>
              forall e :: e in s.entries &&
                (theme.None? || e.doc.theme == theme.value) && (pvt.None? || e.doc.pvt == pvt.value)
                ==> ParseDoc(e.id, Project(e.doc)).Success?
    ensures Listing(s, theme, pvt).Success? ==>
            var qs := Listing(s, theme, pvt).value;
            var sel := Selected(s.entries, Filters(theme, pvt));
            && |qs| == |sel|
            && (forall j :: 0 <= j < |qs| ==>
                  ParseDoc(sel[j].id, Project(sel[j].doc)) == Success(qs[j]) &&
                  qs[j].id == Some(sel[j].id) && qs[j].statement.None?)
            && (forall j :: 0 <= j < |qs| ==> theme.Some? ==> qs[j].theme == theme.value)
            && (forall j :: 0 <= j < |qs| ==> pvt.Some? ==> qs[j].pvt == pvt.value)
            && (forall e :: e in sel <==>
                  e in s.entries &&
                  (theme.None? || e.doc.theme == theme.value) &&
                  (pvt.None? || e.doc.pvt == pvt.value))
  {
    var fs := Filters(theme, pvt);
    ListFromSucceeds(s.entries, fs);
    forall e | e in s.entries
      ensures Selects(fs, e.doc) <==>
                (theme.None? || e.doc.theme == theme.value) && (pvt.None? || e.doc.pvt == pvt.value)
    {
      SelectsIffFilters(theme, pvt, e.doc);
    }
    if Listing(s, theme, pvt).Failure? {
      return;
    }
    var qs := Listing(s, theme, pvt).value;
    ListFromExactly(s.entries, fs);
    forall j | 0 <= j < |qs|
      ensures (theme.Some? ==> qs[j].theme == theme.value) && (pvt.Some? ==> qs[j].pvt == pvt.value)
    {
      assert Admits(fs, qs[j]);
      if theme.Some? {
        assert fs[0] == ThemeIs(theme.value);
      }
      if pvt.Some? {
        assert fs[|fs| - 1] == PvtIs(pvt.value);
      }
    }
    forall e
      ensures e in Selected(s.entries, fs) <==>
                e in s.entries &&
                (theme.None? || e.doc.theme == theme.value) &&
                (pvt.None? || e.doc.pvt == pvt.value)
    {
      SelectedExactly(s.entries, fs, e);
      SelectsIffFilters(theme, pvt, e.doc);
    }
  }

  // ---- add, update, remove ------------------------------------------------

  /** `add(question)`. */
  function Added(s: Store, permitted: int, q: Option<Question>): (o: Outcome<bool>)
    ensures o.result == Success(true) ==>
              q.Some? && o.store == Store(s.entries + [Entry(IdOf(s.nextId), ToDocument(q.value))], s.nextId + 1)
    ensures o.result != Success(true) ==> o.store == s
  {
    if q.None? then Outcome(Failure(NullArgument), s)
    else match CheckChoice(q.value, permitted)
      case Abort(e) => Outcome(Failure(e), s)
      case Refuse => Outcome(Success(false), s)
      case Proceed =>
        if q.value.id.Some? then Outcome(Failure(IdAlreadySet), s)
        else Outcome(Success(true),
                     Store(s.entries + [Entry(IdOf(s.nextId), ToDocument(q.value))], s.nextId + 1))
  }

  /** The entries with the first one under `id` given a new document; unchanged when there is none. */
  function Replace(es: seq<Entry>, id: string, d: Document): (r: seq<Entry>)
    ensures |r| == |es| && forall j :: 0 <= j < |es| ==> r[j].id == es[j].id
  {
    match FindFirst(es, id)
    case None => es
    case Some(i) => es[i := Entry(id, d)]
  }

  /** `update(id, question)`: the write is issued, and the result is the store's acknowledgement. */
  function Updated(s: Store, permitted: int, acknowledged: bool,
                   id: Option<string>, q: Option<Question>): (o: Outcome<bool>)
    ensures o.store.nextId == s.nextId && |o.store.entries| == |s.entries|
    ensures forall j :: 0 <= j < |s.entries| ==> o.store.entries[j].id == s.entries[j].id
    ensures o.store != s ==> o.result == Success(acknowledged)
  {
    if id.None? || q.None? then Outcome(Failure(NullArgument), s)
    else match CheckChoice(q.value, permitted)
      case Abort(e) => Outcome(Failure(e), s)
      case Refuse => Outcome(Success(false), s)
      case Proceed =>
        Outcome(Success(acknowledged),
                Store(Replace(s.entries, id.value, ToDocument(q.value)), s.nextId))
  }

  /** The entries without the first one under `id`. */
  function Delete(es: seq<Entry>, id: string): (r: seq<Entry>)
    ensures |r| == if FindFirst(es, id).Some? then |es| - 1 else |es|
  {
    match FindFirst(es, id)
    case None => es
    case Some(i) => es[..i] + es[i + 1..]
  }

  /** `remove(id)`: deletes only when `get(id)` finds a question. */
  function Removed(s: Store, id: Option<string>): (o: Outcome<bool>)
    ensures o.store.nextId == s.nextId
    ensures o.result == Success(true) ==> |o.store.entries| == |s.entries| - 1
    ensures o.result != Success(true) ==> o.store == s
  {
    if id.None? then Outcome(Failure(NullArgument), s)
    else match Lookup(s, id)
      case Failure(e) => Outcome(Failure(e), s)
      case Success(None) => Outcome(Success(false), s)
      case Success(Some(_)) => Outcome(Success(true), Store(Delete(s.entries, id.value), s.nextId))
  }

  // ---- properties of add, update, remove ----------------------------------

  /** Null arguments throw and leave the store as it was. */
  lemma NullArgumentsRejected(s: Store, permitted: int, acknowledged: bool,
                              id: Option<string>, q: Option<Question>)
    ensures Added(s, permitted, None) == Outcome(Failure(NullArgument), s)
    ensures id.None? || q.None? ==>
              Updated(s, permitted, acknowledged, id, q) == Outcome(Failure(NullArgument), s)
    ensures Removed(s, None) == Outcome(Failure(NullArgument), s)
    ensures Lookup(s, None) == Failure(NullArgument)
  {
  }

  /**
   * The OPTIONS check comes first: a multiple-choice question whose options
   * size differs from it aborts `add` and `update` even when it also has an
   * id or a bad optCount, and nothing is written.
   */
  lemma OptionsPolicyAbortsFirst(s: Store, permitted: int, acknowledged: bool, id: string, q: Question)
    requires q.MultipleChoice? && q.options.Some? && |q.options.value| != permitted
    ensures Added(s, permitted, Some(q)) == Outcome(Failure(OptionsPolicy(permitted)), s)
    ensures Updated(s, permitted, acknowledged, Some(id), Some(q)) ==
            Outcome(Failure(OptionsPolicy(permitted)), s)
  {
  }

  /** A soft refusal returns false and writes nothing, and comes before `add`'s id check. */
  lemma RefusalPrecedesIdCheck(s: Store, permitted: int, acknowledged: bool, id: string, q: Question)
    requires CheckChoice(q, permitted) == Refuse
    ensures Added(s, permitted, Some(q)) == Outcome(Success(false), s)
    ensures Updated(s, permitted, acknowledged, Some(id), Some(q)) == Outcome(Success(false), s)
  {
  }

  /** Once the checks pass, `add` of a question that already has an id throws. */
  lemma AddRejectsStoredQuestion(s: Store, permitted: int, q: Question)
    requires CheckChoice(q, permitted) == Proceed && q.id.Some?
    ensures Added(s, permitted, Some(q)) == Outcome(Failure(IdAlreadySet), s)
  {
  }

  /** The identifier `add` hands out is not yet in use. */
  lemma {:induction false} FreshId(s: Store)
    requires Consistent(s)
    ensures forall j :: 0 <= j < |s.entries| ==> s.entries[j].id != IdOf(s.nextId)
  {
    Decimal.NatToStringRoundTrip(s.nextId);
  }

  lemma AddedConsistent(s: Store, permitted: int, q: Option<Question>)
    requires Consistent(s)
    ensures Consistent(Added(s, permitted, q).store)
  {
    FreshId(s);
    Decimal.NatToStringRoundTrip(s.nextId);
  }

  /**
   * A successful `add` appends exactly one document, the question's, under a
   * fresh identifier, and returns true.
   */
  lemma AddAppendsOne(s: Store, permitted: int, q: Question)
    requires Consistent(s) && CheckChoice(q, permitted) == Proceed && q.id.None?
    ensures var o := Added(s, permitted, Some(q));
            && o.result == Success(true)
            && o.store.entries == s.entries + [Entry(IdOf(s.nextId), ToDocument(q))]
            && forall j :: 0 <= j < |s.entries| ==> s.entries[j].id != IdOf(s.nextId)
  {
    FreshId(s);
  }

  /**
   * Adding a well-formed question and getting it back by its new identifier
   * yields an open question equal to the one added once the id is filled in.
   */
  lemma AddThenGet(s: Store, permitted: int, q: Question)
    requires Consistent(s) && WellFormed(q) && q.id.None? && CheckChoice(q, permitted) == Proceed
    ensures var o := Added(s, permitted, Some(q));
            var id := IdOf(s.nextId);
            && o.result == Success(true)
            && Lookup(o.store, Some(id)) ==
               Success(Some(Open(Some(id), q.theme, q.description, q.statement, q.record, q.pvt)))
            && Equals(Lookup(o.store, Some(id)).value.value, Some(q.(id := Some(id))))
  {
    var es := Added(s, permitted, Some(q)).store.entries;
    var id := IdOf(s.nextId);
    FreshId(s);
    FindFirstAt(es, id, |s.entries|);
    DocumentRoundTrip(id, q);
  }

  /** `update` of an identifier that is not stored still returns the acknowledgement, and changes nothing. */
  lemma UpdateOfMissingId(s: Store, permitted: int, acknowledged: bool, id: string, q: Question)
    requires CheckChoice(q, permitted) == Proceed
    requires forall j :: 0 <= j < |s.entries| ==> s.entries[j].id != id
    ensures Updated(s, permitted, acknowledged, Some(id), Some(q)) == Outcome(Success(acknowledged), s)
  {
  }

  /**
   * `update` of a stored identifier replaces that whole document in place;
   * the question's own id is ignored, and the entry reads back as an open
   * question with the new common fields.
   */
  lemma UpdateReplacesDocument(s: Store, permitted: int, acknowledged: bool, i: nat, q: Question)
    requires Consistent(s) && i < |s.entries| && CheckChoice(q, permitted) == Proceed
    requires WellFormed(q)
    ensures var id := s.entries[i].id;
            var o := Updated(s, permitted, acknowledged, Some(id), Some(q));
            && o.result == Success(acknowledged)
            && o.store.entries == s.entries[i := Entry(id, ToDocument(q))]
            && Lookup(o.store, Some(id)) ==
               Success(Some(Open(Some(id), q.theme, q.description, q.statement, q.record, q.pvt)))
  {
    var id := s.entries[i].id;
    FindFirstAt(s.entries, id, i);
    var es := Updated(s, permitted, acknowledged, Some(id), Some(q)).store.entries;
    FindFirstAt(es, id, i);
    DocumentRoundTrip(id, q);
  }

  lemma UpdatedConsistent(s: Store, permitted: int, acknowledged: bool,
                          id: Option<string>, q: Option<Question>)
    requires Consistent(s)
    ensures Consistent(Updated(s, permitted, acknowledged, id, q).store)
  {
  }

  /** `remove` of an identifier `get` does not find returns false and deletes nothing. */
  lemma RemoveOfMissingId(s: Store, id: string)
    requires Lookup(s, Some(id)) == Success(None)
    ensures Removed(s, Some(id)) == Outcome(Success(false), s)
  {
  }

  /** Deleting one entry keeps every other entry, in order. */
  lemma DeleteKeepsOthers(es: seq<Entry>, i: nat)
    requires i < |es|
    ensures var r := es[..i] + es[i + 1..];
            |r| == |es| - 1 && forall a :: 0 <= a < |r| ==> r[a] == es[if a < i then a else a + 1]
  {
  }

  lemma RemovedConsistent(s: Store, id: Option<string>)
    requires Consistent(s)
    ensures Consistent(Removed(s, id).store)
  {
    var r := Removed(s, id).store;
    if r != s {
      var i := FindFirst(s.entries, id.value).value;
      var es := s.entries[..i] + s.entries[i + 1..];
      assert r == Store(es, s.nextId);
      DeleteKeepsOthers(s.entries, i);
      forall a, b | 0 <= a < b < |es|
        ensures es[a].id != es[b].id
      {
        assert es[a] == s.entries[if a < i then a else a + 1];
        assert es[b] == s.entries[if b < i then b else b + 1];
      }
    }
  }

  /** After a successful `remove`, `get` of that identifier finds nothing. */
  lemma RemoveThenGetFindsNothing(s: Store, id: string)
    requires Consistent(s) && Lookup(s, Some(id)).Success? && Lookup(s, Some(id)).value.Some?
    ensures FindFirst(s.entries, id).Some?
    ensures var o := Removed(s, Some(id));
            var i := FindFirst(s.entries, id).value;
            && o.result == Success(true)
            && o.store == Store(s.entries[..i] + s.entries[i + 1..], s.nextId)
            && (forall e :: e in s.entries && e.id != id ==> e in o.store.entries)
            && Lookup(o.store, Some(id)) == Success(None)
  {
    var i := FindFirst(s.entries, id).value;
    var r := Removed(s, Some(id)).store.entries;
    assert r == s.entries[..i] + s.entries[i + 1..];
    DeleteKeepsOthers(s.entries, i);
    forall j | 0 <= j < |r|
      ensures r[j].id != id
    {
      assert r[j] == s.entries[if j < i then j else j + 1];
    }
  }

  /**
   * The round trip of a new question through the repository: an open
   * question with theme "sets", description "intro" and pvt false is added,
   * read back equal to it with its id filled in, removed, and then not found.
   */
  lemma AddGetRemoveScenario(s: Store, permitted: int)
    requires Consistent(s)
    ensures var q := Open(None, "sets", "intro", None, map[], false);
            var added := Added(s, permitted, Some(q));
            var id := IdOf(s.nextId);
            var removed := Removed(added.store, Some(id));
            && added.result == Success(true)
            && Lookup(added.store, Some(id)).Success?
            && Lookup(added.store, Some(id)).value.Some?
            && Equals(Lookup(added.store, Some(id)).value.value, Some(q.(id := Some(id))))
            && removed.result == Success(true)
            && Lookup(removed.store, Some(id)) == Success(None)
  {
    var q := Open(None, "sets", "intro", None, map[], false);
    AddThenGet(s, permitted, q);
    AddedConsistent(s, permitted, Some(q));
    RemoveThenGetFindsNothing(Added(s, permitted, Some(q)).store, IdOf(s.nextId));
  }

  // ---- the repository object ----------------------------------------------

  class QuestionDAO {
    var entries: seq<Entry>
    var nextId: nat
    /** The OPTIONS setting: the only option count multiple-choice writes may have. */
    const permitted: int
    /** Whether the store acknowledges replace operations. */
    const acknowledged: bool

    function Abs(): (s: Store)
      reads this
    {
      Store(entries, nextId)
    }

    ghost predicate Valid()
      reads this
    {
      Consistent(Abs())
    }

    /** Opens the repository over the collection as it already stands. */
    constructor (initial: Store, permitted: int, acknowledged: bool)
      requires Consistent(initial)
      ensures Valid() && Abs() == initial
      ensures this.permitted == permitted && this.acknowledged == acknowledged
    {
      entries, nextId := initial.entries, initial.nextId;
      this.permitted, this.acknowledged := permitted, acknowledged;
    }

    /** `get(id)`: the question stored under `id`, read back through `parseDoc`. */
    function Get(id: Option<string>): (r: Result<Option<Question>, DaoError>)
      reads this
      ensures id.None? ==> r == Failure(NullArgument)
      ensures r == Success(None) <==>
                id.Some? && forall j :: 0 <= j < |entries| ==> entries[j].id != id.value
      ensures r.Success? && r.value.Some? ==> r.value.value.id == id
      ensures r == Lookup(Abs(), id)
    {
      Lookup(Abs(), id)
    }

    /** `list(theme, pvt)`: reads the selected documents, statement excluded, into a list. */
    method List(theme: Option<string>, pvt: Option<bool>) returns (r: Result<seq<Question>, DaoError>)
      ensures r == Listing(Abs(), theme, pvt)
    {
      var filters := Filters(theme, pvt);
      var result: seq<Question> := [];
      var i := 0;
      while i < |entries|
        invariant 0 <= i <= |entries|
        invariant ListFrom(entries[..i], filters) == Success(result)
      {
        var e := entries[i];
        assert entries[..i + 1][..i] == entries[..i];
        if Selects(filters, e.doc) {
          var parsed := ParseDoc(e.id, Project(e.doc));
          if parsed.Failure? {
            ListFromFailureLasts(entries, i + 1, filters);
            return Failure(parsed.error);
          }
          result := result + [parsed.value];
        }
        i := i + 1;
      }
      assert entries[..i] == entries;
      return Success(result);
    }

    /** `add(question)`. */
    method Add(q: Option<Question>) returns (r: Result<bool, DaoError>)
      requires Valid()
      modifies this
      ensures Valid()
      ensures Outcome(r, Abs()) == Added(old(Abs()), permitted, q)
    {
      AddedConsistent(Abs(), permitted, q);
      if q.None? {
        return Failure(NullArgument);
      }
      var question := q.value;
      var doc := ToDocument(question);
      var verdict := CheckChoice(question, permitted);
      if verdict.Abort? {
        return Failure(verdict.error);
      }
      if verdict.Refuse? {
        return Success(false);
      }
      if question.id.Some? {
        return Failure(IdAlreadySet);
      }
      entries := entries + [Entry(IdOf(nextId), doc)];
      nextId := nextId + 1;
      return Success(true);
    }

    /** `update(id, question)`. */
    method Update(id: Option<string>, q: Option<Question>) returns (r: Result<bool, DaoError>)
      requires Valid()
      modifies this
      ensures Valid()
      ensures Outcome(r, Abs()) == Updated(old(Abs()), permitted, acknowledged, id, q)
    {
      UpdatedConsistent(Abs(), permitted, acknowledged, id, q);
      if id.None? {
        return Failure(NullArgument);
      }
      if q.None? {
        return Failure(NullArgument);
      }
      var question := q.value;
      var doc := ToDocument(question);
      var verdict := CheckChoice(question, permitted);
      if verdict.Abort? {
        return Failure(verdict.error);
      }
      if verdict.Refuse? {
        return Success(false);
      }
      var target := FindFirst(entries, id.value);
      if target.Some? {
        entries := entries[target.value := Entry(id.value, doc)];
      }
      if !acknowledged {
        return Success(false);
      }
      return Success(true);
    }

    /** `remove(id)`. */
    method Remove(id: Option<string>) returns (r: Result<bool, DaoError>)
      requires Valid()
      modifies this
      ensures Valid()
      ensures Outcome(r, Abs()) == Removed(old(Abs()), id)
    {
      RemovedConsistent(Abs(), id);
      if id.None? {
        return Failure(NullArgument);
      }
      var found := Get(id);
      if found.Failure? {
        return Failure(found.error);
      }
      if found.value.Some? {
        var i := FindFirst(entries, id.value).value;
        entries := entries[..i] + entries[i + 1..];
        return Success(true);
      }
      return Success(false);
    }
  }
}

=== FILE: question_service.dfy ===
/**
 * QuestionService: parse-then-delegate create and update, and the privacy
 * rule for listings. The Java class holds the repository in a static field;
 * here the repository is passed to each operation.
 */
module Service {
  import opened Wrappers
  import opened Questions
  import Builders
  import opened Repository

  /**
   * A request body after JSON decoding: the builder fields it sets, or `None`
   * when it is not a question document at all.
   */
  type Body = Option<Builders.Fields>

  /** What the service throws: a wrapped parse or build failure, or a repository exception as is. */
  datatype ServiceError = BadBody(cause: Option<Builders.BuildError>) | Dao(error: DaoError)

  /** Parsing a body and building it; any failure becomes `BadBody`. */
  function Decode(body: Body): (r: Result<Question, ServiceError>)
    ensures body.None? ==> r == Failure(BadBody(None))
    ensures body.Some? && Builders.BuildResult(body.value).Success? ==>
              r == Success(Builders.BuildResult(body.value).value)
    ensures body.Some? && Builders.BuildResult(body.value).Failure? ==>
              r == Failure(BadBody(Some(Builders.BuildResult(body.value).error)))
  {
    match body
    case None => Failure(BadBody(None))
    case Some(fields) =>
      match Builders.BuildResult(fields)
      case Success(q) => Success(q)
      case Failure(e) => Failure(BadBody(Some(e)))
  }

  function Lift<T>(r: Result<T, DaoError>): (lifted: Result<T, ServiceError>) {
    match r
    case Success(v) => Success(v)
    case Failure(e) => Failure(Dao(e))
  }

  /** `create(body)`: a bad body never reaches the repository; otherwise the result of `add`. */
  method Create(dao: QuestionDAO, body: Body) returns (r: Result<bool, ServiceError>)
    requires dao.Valid()
    modifies dao
    ensures dao.Valid()
    ensures Decode(body).Failure? ==> r == Failure(Decode(body).error) && dao.Abs() == old(dao.Abs())
    ensures Decode(body).Success? ==>
              var o := Added(old(dao.Abs()), dao.permitted, Some(Decode(body).value));
              r == Lift(o.result) && dao.Abs() == o.store
  {
    var decoded := Decode(body);
    if decoded.Failure? {
      return Failure(decoded.error);
    }
    var added := dao.Add(Some(decoded.value));
    return Lift(added);
  }

  /** `update(id, body)`: a bad body never reaches the repository; otherwise the result of `update`. */
  method Update(dao: QuestionDAO, id: Option<string>, body: Body) returns (r: Result<bool, ServiceError>)
    requires dao.Valid()
    modifies dao
    ensures dao.Valid()
    ensures Decode(body).Failure? ==> r == Failure(Decode(body).error) && dao.Abs() == old(dao.Abs())
    ensures Decode(body).Success? ==>
              var o := Updated(old(dao.Abs()), dao.permitted, dao.acknowledged, id, Some(Decode(body).value));
              r == Lift(o.result) && dao.Abs() == o.store
  {
    var decoded := Decode(body);
    if decoded.Failure? {
      return Failure(decoded.error);
    }
    var updated := dao.Update(id, Some(decoded.value));
    return Lift(updated);
  }

  /** `getByID(id)`: the repository's `get`, unchanged. */
  function GetById(dao: QuestionDAO, id: Option<string>): (r: Result<Option<Question>, DaoError>)
    reads dao
    ensures id.None? ==> r == Failure(NullArgument)
    ensures r == Success(None) <==>
              id.Some? && forall j :: 0 <= j < |dao.entries| ==> dao.entries[j].id != id.value
    ensures r.Success? && r.value.Some? ==> r.value.value.id == id
    ensures r == Lookup(dao.Abs(), id)
  {
    dao.Get(id)
  }

  /** The privacy filter of a listing: none for an authenticated caller, public only otherwise. */
  function PrivacyFilter(auth: bool): (p: Option<bool>)
    ensures auth <==> p.None?
    ensures !auth ==> p == Some(false)
  {
    if auth then None else Some(false)
  }

  /** `getAll(auth)`: the listing with no theme filter and the caller's privacy filter. */
  method GetAll(dao: QuestionDAO, auth: bool) returns (r: Result<seq<Question>, DaoError>)
    ensures r == Listing(dao.Abs(), None, PrivacyFilter(auth))
  {
    r := dao.List(None, PrivacyFilter(auth));
  }

  /**
   * An unauthenticated listing succeeds exactly when every public stored
   * document parses, and then holds only public questions, without statements.
   */
  lemma UnauthenticatedSeesOnlyPublic(s: Store)
    ensures Listing(s, None, PrivacyFilter(false)).Success? <==>
              forall e :: e in s.entries && !e.doc.pvt ==> ParseDoc(e.id, Project(e.doc)).Success?
    ensures Listing(s, None, PrivacyFilter(false)).Success? ==>
              forall q :: q in Listing(s, None, PrivacyFilter(false)).value ==> !q.pvt && q.statement.None?
  {
    ListingMatchesFilters(s, None, Some(false));
  }

  /**
   * An authenticated listing succeeds exactly when every stored document
   * parses, and then holds every stored question, in storage order: each
   * entry's document read back, without its statement.
   */
  lemma AuthenticatedSeesAll(s: Store)
    ensures Listing(s, None, PrivacyFilter(true)).Success? <==>
              forall e :: e in s.entries ==> ParseDoc(e.id, Project(e.doc)).Success?
    ensures Listing(s, None, PrivacyFilter(true)).Success? ==>
              var qs := Listing(s, None, PrivacyFilter(true)).value;
              && |qs| == |s.entries|
              && forall j :: 0 <= j < |qs| ==>
                   ParseDoc(s.entries[j].id, Project(s.entries[j].doc)) == Success(qs[j])
  {
    ListingMatchesFilters(s, None, None);
    NoFilterSelectsAll(s.entries);
  }

  /** `deleteByID(id)`: the repository's `remove`, unchanged. */
  method DeleteById(dao: QuestionDAO, id: Option<string>) returns (r: Result<bool, DaoError>)
    requires dao.Valid()
    modifies dao
    ensures dao.Valid()
    ensures Outcome(r, dao.Abs()) == Removed(old(dao.Abs()), id)
  {
    r := dao.Remove(id);
  }
}

=== FILE: semester.dfy ===
/**
 * The Semester key of a question's record: a year and which half of it.
 * Semester's own source is not part of this model; its string form, which the
 * repository uses as the document key (`e.getKey().toString()`), is modelled
 * by a canonical token "year.1" / "year.2" and its decoder.
 */
module Semesters {
  import opened Wrappers
  import Decimal

  datatype Reference = One | Two

  datatype Semester = Semester(year: int, reference: Reference)

  function ReferenceDigit(r: Reference): (c: char) {
    match r
    case One => '1'
    case Two => '2'
  }

  /** The document key a Semester is stored under. */
  function Key(s: Semester): (k: string)
    ensures |k| >= 3 && k[|k| - 2] == '.' && k[|k| - 1] == ReferenceDigit(s.reference)
  {
    Decimal.IntToString(s.year) + ['.', ReferenceDigit(s.reference)]
  }

  /**
   * Decodes a document key; only canonical tokens (exactly what `Key`
   * produces) are accepted, anything else is a corrupt key.
   */
  function ParseKey(k: string): (r: Option<Semester>)
    ensures r.Some? ==> Key(r.value) == k
  {
    if |k| >= 3 && k[|k| - 2] == '.' && (k[|k| - 1] == '1' || k[|k| - 1] == '2') then
      var reference := if k[|k| - 1] == '1' then One else Two;
      match Decimal.ParseInteger(k[..|k| - 2])
      case None => None
      case Some(year) =>
        if Key(Semester(year, reference)) == k then Some(Semester(year, reference)) else None
    else
      None
  }

  lemma KeyRoundTrip(s: Semester)
    ensures ParseKey(Key(s)) == Some(s)
  {
    var k := Key(s);
    assert k[..|k| - 2] == Decimal.IntToString(s.year);
    Decimal.IntToStringRoundTrip(s.year);
  }

  /** Distinct semesters never collide as document keys. */
  lemma KeyInjective(s: Semester, t: Semester)
    requires Key(s) == Key(t)
    ensures s == t
  {
    KeyRoundTrip(s);
    KeyRoundTrip(t);
  }
}

=== FILE: wrappers.dfy ===
/** Option and Result, standing for Java's nullable references and thrown exceptions. */
module Wrappers {

  /** `None` stands for a Java `null`. */
  datatype Option<+T> = None | Some(value: T)

  /** `Failure` stands for an exception thrown out of a Java method. */
  datatype Result<+R, +E> = Success(value: R) | Failure(error: E)
}
